=== FILE: README.md ===
# Corrade `Containers::Pointer<T>` in Dafny

This project models `Containers::Pointer<T>` from Corrade. It is a
lightweight, move-only owning pointer, the library's counterpart of
`std::unique_ptr` without custom deleters or array support. A `Pointer<T>` has
one member, the stored raw pointer. So it is either Empty (`nullptr`) or
Owning (one live heap object). The class promises that a `Pointer<T>` deletes
the object it owns exactly once. The danger is a leak or a double free.

The model has four modules.

- `Memory` (memory.dfy) is an abstract free store. It records the live objects
  by address. It counts allocations and deletions per address, because a freed
  address may be handed out again. It also has a `badDelete` flag: `delete` on
  an address that holds no live object sets it. C++ leaves that case undefined.
- `Pointers` (pointers.dfy) has one pure function per member of the class and
  one per free function in the header. Members that call `new` or `delete`
  take the heap and return the updated heap. A member that changes `*this`
  returns the new `*this`. The move operations also return the new `other`.
- `Ownership` (ownership.dfy) covers many pointers over one heap. Each live
  `Pointer<T>` occupies a slot. The program may also hold raw owning `T*`
  values outside any pointer: ones it made with a plain `new`, or ones that
  `release()` handed back. The invariant `Good` says four things:
  - every live object has exactly one owner, either one slot or the program's
    raw pointers;
  - every slot's object is live;
  - the allocation counts balance;
  - no bad delete has happened.
  A lemma per operation proves that the operation keeps `Good`.
- `Traces` (traces.dfy) covers whole programs, written as sequences of
  operations. It proves that every allowed program keeps `Good`. It also proves
  that when every pointer's lifetime has ended and no raw pointer is left,
  allocations and deletions match address by address. So every allocation was
  deleted exactly once. The module also has two scenarios with a counting
  element type, and two misuse lemmas that show how breaking the caller's rule
  leads to a double free.

The caller has one rule the class cannot check. A pointer passed to the
adopting constructor, to `pointer(T*)` or to `reset()` must be null or owned by
the caller. This rule appears as the precondition of the preservation lemmas
(`Traces.Allowed`). It is not a precondition of the operations themselves,
because `Pointer.h` does not check it either.

The allocator is a parameter. The in-place constructor, `emplace()` and
`pointer(args...)` take the address `place` where the new object is built. They
require only that no live object is at that address. That is the allocator's
own guarantee. The address may be one that was just freed.

The constructor arguments are represented by `value`, the object they construct.

## Behaviour worth noting

- Move assignment (`Pointer.h:98-101`) is `std::swap`. It deletes nothing. The
  destination's old object moves into the source, which deletes it when the
  source is destroyed.
- `reset(p)` (`Pointer.h:187-190`) deletes the old object before storing `p`.
  So `p.reset(p.get())` on a non-null pointer stores a dead address.
  `Traces.ResetToOwnAddressDangles` shows that the end of that pointer's
  lifetime then deletes the address a second time.
- The doc comment of `operator!=(std::nullptr_t)` (`Pointer.h:116-117`) has a
  typo: it says the operator returns false in both cases. The code returns true
  exactly when the pointer is non-null, and that is what is modelled.

## Model

| member | source | states |
|---|---|---|
| Memory.New | src/Corrade/Containers/Pointer.h:84 | `new T{args}` makes exactly one more object live, at an address that held none, with the constructed value; every other object keeps its value; the allocations gain exactly one entry, for that address; deletions and the bad-delete flag are unchanged |
| Memory.Delete | src/Corrade/Containers/Pointer.h:126 | `delete` on null changes nothing; otherwise that one object stops being live, its deletion count goes up by exactly one, and the delete is flagged bad exactly when the address held no live object |
| Memory.DeleteLiveKeepsBalanced | src/Corrade/Containers/Pointer.h:126 | deleting null or a live object keeps every address's allocation count equal to its deletions plus its liveness |
| Memory.NewThenDeleteRestores | src/Corrade/Containers/Pointer.h:84 | deleting what was just allocated restores the live objects and adds exactly one deletion of that address |
| Memory.DeleteTwiceIsBad | src/Corrade/Containers/Pointer.h:126 | a second `delete` of the same address with no allocation in between is a bad delete |
| Pointers.EqualsNull | src/Corrade/Containers/Pointer.h:110 | `p == nullptr` is true exactly when `get()` is null |
| Pointers.NotEqualsNull | src/Corrade/Containers/Pointer.h:119 | `p != nullptr` is the negation of `p == nullptr`: true exactly when `get()` is non-null |
| Pointers.NullEquals | src/Corrade/Containers/Pointer.h:226 | the free `nullptr == p` is true exactly when `get()` is null |
| Pointers.NullNotEquals | src/Corrade/Containers/Pointer.h:233 | the free `nullptr != p` is the negation of `nullptr == p`: true exactly when `get()` is non-null |
| Pointers.ToBool | src/Corrade/Containers/Pointer.h:134 | the `bool` conversion agrees with `p != nullptr`: true exactly when `get()` is non-null |
| Pointers.Get | src/Corrade/Containers/Pointer.h:141-142 | `get()` returns the whole stored state: the pointer is exactly the one holding what `get()` returns |
| Pointers.Arrow | src/Corrade/Containers/Pointer.h:151-160 | `->` needs a non-null pointer (the assertion) and yields the address `get()` returns |
| Pointers.Deref | src/Corrade/Containers/Pointer.h:169-178 | `*` needs a non-null pointer and refers to the same object as `->` and `get()` |
| Pointers.Null | src/Corrade/Containers/Pointer.h:68 | the default and `nullptr` constructors give a pointer equal to `nullptr` whose `get()` is null; it takes no heap, so it allocates nothing |
| Pointers.Adopt | src/Corrade/Containers/Pointer.h:76 | the adopting constructor stores exactly the passed pointer, and converts to true exactly when that pointer is non-null |
| Pointers.InPlace | src/Corrade/Containers/Pointer.h:84 | in-place construction makes exactly one new live object holding the constructed value, and the pointer refers to it; every other object keeps its value; the allocations gain exactly that address; no deletion happens and the bad-delete flag is unchanged |
| Pointers.MoveConstruct | src/Corrade/Containers/Pointer.h:90-92 | the new pointer holds what the source held and the source becomes null; no heap is touched |
| Pointers.MoveAssign | src/Corrade/Containers/Pointer.h:98-101 | move assignment exchanges the two stored pointers; no heap is touched, so nothing is deleted |
| Pointers.Destroy | src/Corrade/Containers/Pointer.h:126 | the destructor leaves the heap untouched when null; otherwise it deletes the owned address exactly once, changes no other address's count, removes only that object, leaves the surviving objects' values alone, and flags a bad delete exactly when the owned address was not live |
| Pointers.Reset | src/Corrade/Containers/Pointer.h:187-190 | `reset(p)` has exactly the destructor's effect on the heap and then `get()` returns `p` |
| Pointers.Emplace | src/Corrade/Containers/Pointer.h:198-202 | `emplace` deletes as the destructor does, then adds exactly one live object with the constructed value; the surviving objects keep their values; the allocations gain exactly the new address; the returned reference and `get()` both refer to the new object |
| Pointers.Release | src/Corrade/Containers/Pointer.h:211-215 | `release()` returns what `get()` returned and leaves the pointer equal to `nullptr`; no heap is touched |
| Pointers.MakeFromRaw | src/Corrade/Containers/Pointer.h:251-254 | `pointer(T*)` gives the same pointer as the adopting constructor |
| Pointers.MakeInPlace | src/Corrade/Containers/Pointer.h:277-280 | `pointer(args...)` gives the same heap and pointer as in-place construction |
| Pointers.MemberNullTestsAgree | src/Corrade/Containers/Pointer.h:110-142 | `== nullptr` holds exactly when `get()` is null, `!= nullptr` is its negation, and `bool` conversion equals `!= nullptr` |
| Pointers.FreeNullTestsAgree | src/Corrade/Containers/Pointer.h:226-233 | `nullptr == p` and `nullptr != p` agree with the member forms and are each other's negation |
| Pointers.ReleaseThenAdopt | src/Corrade/Containers/Pointer.h:211-215 | adopting what `release()` returned rebuilds the original pointer |
| Pointers.MoveAssignTwiceRestores | src/Corrade/Containers/Pointer.h:98-101 | moving back and forth restores both pointers |
| Pointers.SelfMoveAssignUnchanged | src/Corrade/Containers/Pointer.h:98-101 | self-move-assignment leaves the pointer as it was |
| Pointers.ResetNullEmpties | src/Corrade/Containers/Pointer.h:187-190 | `reset(nullptr)` is destruction followed by an empty pointer |
| Pointers.EmplaceIsResetInPlace | src/Corrade/Containers/Pointer.h:198-202 | `emplace` is `reset(nullptr)` followed by in-place construction on the resulting heap |
| Pointers.ReleaseAdoptDestroyDeletesOnce | src/Corrade/Containers/Pointer.h:211-215 | releasing, adopting into a new pointer and destroying both pointers deletes the released object exactly once, and it is no longer live |
| Ownership.EmptyWorld | src/Corrade/Containers/Pointer.h:58-219 | a program with no pointers and no allocations satisfies the ownership invariant |
| Ownership.DeclareNull | src/Corrade/Containers/Pointer.h:68 | a new null pointer appears in the new slot; every other slot, the heap and the raw pointers are unchanged |
| Ownership.DeclareAdopt | src/Corrade/Containers/Pointer.h:76 | a new adopting pointer stores the passed pointer, and the program no longer holds that address raw; every other slot and the heap are unchanged |
| Ownership.DeclareInPlace | src/Corrade/Containers/Pointer.h:277-280 | a new in-place pointer refers to exactly one new live object with the constructed value; every other slot, every other object, the deletions and the raw pointers are unchanged; the allocations gain exactly that address |
| Ownership.DeclareMoved | src/Corrade/Containers/Pointer.h:90-92 | after move construction the new slot holds what the source slot held and the source slot is null; every other slot, the heap and the raw pointers are unchanged |
| Ownership.MoveAssign | src/Corrade/Containers/Pointer.h:98-101 | the two slots exchange their stored pointers; no slot appears or disappears, every other slot keeps its contents, and the heap and the raw pointers are unchanged |
| Ownership.Reset | src/Corrade/Containers/Pointer.h:187-190 | the slot's old object gets exactly one more deletion and stops being live, and no other address gets any; the slot then holds the passed pointer, which the program no longer holds raw; every other slot keeps its contents; surviving objects keep their values, allocations are unchanged, and the bad-delete flag is raised exactly when the old pointer was non-null but not live |
| Ownership.Emplace | src/Corrade/Containers/Pointer.h:198-202 | the slot's old object gets exactly one more deletion and stops being live, and no other address gets any; the slot and the returned reference name the one new live object, built at the address `place` the allocator handed out (which held no live object once the old one was deleted), with the constructed value; every other surviving object keeps its value; the allocations gain exactly that address; the bad-delete flag is raised exactly when the old pointer was non-null but not live; every other slot and the raw pointers are unchanged |
| Ownership.Release | src/Corrade/Containers/Pointer.h:211-215 | the slot becomes null, the returned pointer is what it held, and the program now holds that address raw; every other slot and the heap are unchanged |
| Ownership.Destroy | src/Corrade/Containers/Pointer.h:126 | the slot disappears; its object gets exactly one more deletion and stops being live; no other address gets any deletion; surviving objects keep their values and allocations are unchanged; the bad-delete flag is raised exactly when the slot held a non-null pointer that was not live, so destroying a live owner is never a double free; every other slot and the raw pointers are unchanged |
| Ownership.DeclareNullKeepsGood | src/Corrade/Containers/Pointer.h:68 | declaring a null pointer keeps the ownership invariant |
| Ownership.DeclareAdoptKeepsGood | src/Corrade/Containers/Pointer.h:76 | adopting null or a raw pointer the program owns keeps the ownership invariant |
| Ownership.AllocateIntoKeepsGood | src/Corrade/Containers/Pointer.h:84 | allocating a new object into a new or empty slot keeps the ownership invariant |
| Ownership.DeclareInPlaceKeepsGood | src/Corrade/Containers/Pointer.h:84 | in-place construction keeps the ownership invariant |
| Ownership.DeclareMovedKeepsGood | src/Corrade/Containers/Pointer.h:90-92 | move construction keeps the ownership invariant |
| Ownership.SwapKeepsOwnership | src/Corrade/Containers/Pointer.h:98-101 | exchanging the stored pointers of two distinct slots leaves the set of owned addresses and exclusive ownership as they were |
| Ownership.MoveAssignKeepsGood | src/Corrade/Containers/Pointer.h:98-101 | move assignment keeps the ownership invariant, including self-move-assignment |
| Ownership.ResetKeepsGood | src/Corrade/Containers/Pointer.h:187-190 | `reset` with null or a raw pointer the program owns keeps the ownership invariant |
| Ownership.EmplaceKeepsGood | src/Corrade/Containers/Pointer.h:198-202 | `emplace` keeps the ownership invariant, even when the allocator reuses the address just freed |
| Ownership.ReleaseKeepsGood | src/Corrade/Containers/Pointer.h:211-215 | `release()` keeps the ownership invariant: the object passes from the slot to the program |
| Ownership.DestroyKeepsGood | src/Corrade/Containers/Pointer.h:126 | the end of a pointer's lifetime keeps the ownership invariant and removes exactly its address from the owned set |
| Ownership.SelfMoveAssignUnchanged | src/Corrade/Containers/Pointer.h:98-101 | `p = std::move(p)` leaves the whole program state unchanged |
| Ownership.OwnedIsLive | src/Corrade/Containers/Pointer.h:151-178 | under the invariant, dereferencing a non-null pointer reaches a live object that the program does not also hold raw |
| Ownership.ReleaseAdoptDestroyDeletesOnce | src/Corrade/Containers/Pointer.h:211-215 | releasing, adopting into a new pointer and ending both lifetimes deletes the object exactly once and keeps the invariant |
| Traces.StepKeepsGood | src/Corrade/Containers/Pointer.h:58-219 | every allowed operation keeps the ownership invariant |
| Traces.RunKeepsGood | src/Corrade/Containers/Pointer.h:58-219 | every allowed program keeps the ownership invariant: no address is owned twice, no slot dangles, no delete hits a dead address |
| Traces.DestroyAll | src/Corrade/Containers/Pointer.h:126 | ending the lifetimes of the listed pointers removes exactly those slots and leaves the raw pointers alone |
| Traces.DestroyAllKeepsGood | src/Corrade/Containers/Pointer.h:126 | when every pointer's lifetime ends, the invariant still holds, no pointer is left, and only the program's raw pointers stay live |
| Traces.DestroyAllDeletesOwnedOnce | src/Corrade/Containers/Pointer.h:126 | when every pointer's lifetime ends, each object a pointer owned gets exactly one more deletion and no other address gets any |
| Traces.EveryAllocationDeletedOnce | src/Corrade/Containers/Pointer.h:58-219 | a program that starts empty, keeps the caller's rule and ends with no pointer and no raw pointer has no live object, and its deletions equal its allocations address by address, with no bad delete |
| Traces.CounterScenario | src/Corrade/Containers/Pointer.h:187-215 | construct with 5, then `reset(new Counter(7))`, then `release()`: the first object is deleted once, the pointer shows 7, `release()` returns the object holding 7, and the pointer is null |
| Traces.MakeThenDestroyNetZero | src/Corrade/Containers/Pointer.h:277-280 | `pointer<T>()` followed by the end of its lifetime leaves no live object and equal allocation and deletion counts |
| Traces.AdoptingOwnedAddressDoubleFrees | src/Corrade/Containers/Pointer.h:76 | adopting an address another pointer owns breaks the invariant, and ending both lifetimes deletes it twice |
| Traces.ResetToOwnAddressDangles | src/Corrade/Containers/Pointer.h:187-190 | `p.reset(p.get())` leaves `p` holding a dead address, breaks the invariant, and the end of its lifetime deletes it twice |

## Left out

- Exceptions thrown by `T`'s constructor are not modelled. This affects the
  in-place constructor, `emplace()` and `pointer(args...)`: allocation and
  construction always succeed. On a throw, `emplace()` would keep the address
  it had already deleted (`Pointer.h:199-200`). The model states nothing about
  that case.
- The compile-time rules have no runtime behaviour and are not modelled:
  - the `static_assert` against array types;
  - the `static_assert`s against element types constructible from their own
    pointer, in both `pointer()` factories and the `IsFirstAPointer` helper;
  - the deleted copy constructor and copy assignment.
- The debug output `operator<<` is not modelled. It prints `get()` and is
  output plumbing only.
- `CORRADE_ASSERT` is modelled only as the precondition of `->` and `*`. What
  it does when assertions are disabled or made graceful is not modelled.
- The const and non-const overloads of `get()`, `->` and `*` behave the same,
  so each has one function.
- `T`'s constructor and destructor are modelled as having no effects beyond
  creating or removing the one object. Objects are opaque values, and `delete`
  removes only the object at the deleted address. An element type that itself
  owns other objects is outside every theorem here. An example is a node
  holding a `Pointer<Node> next`, whose destructor frees further objects.
- Writing to the pointee through `->`, `*` or `get()` is not modelled. Object
  values change only by construction.
- Real addresses and the allocator are not modelled. Addresses are abstract
  natural numbers, and the allocator's choice is a parameter.
- `InPlaceInitT` is defined in `Corrade/Containers/Tags.h`. That file is not
  part of this model.
- `Ownership.NewRaw` and `Ownership.DeleteRaw` are the program's own plain
  `new` and `delete`. They are not members of the class, so they have no row
  above.

=== FILE: memory.dfy ===
/**
 * The free store that C++ `new` and `delete` act on, with real addresses and
 * the allocator abstracted away. Every Pointer<T> operation that allocates or
 * frees goes through `New` and `Delete` below.
 */
module Memory {
  import opened Wrappers

  /** An abstract heap address. */
  type Addr = nat

  /** A raw `T*`; `None` is `nullptr`. */
  type RawPtr = Option<Addr>

  /**
   * The heap: the live objects by address, every address `new` has handed
   * out (counted with repetition, since a freed address may be handed out
   * again), every non-null address `delete` was applied to, and whether some
   * `delete` hit an address holding no live object (a double free or a free of
   * memory the heap never handed out, undefined behaviour in C++).
   */
  datatype Heap<T> = Heap(objects: map<Addr, T>, allocations: multiset<Addr>,
                          deletions: multiset<Addr>, badDelete: bool)

  /** The heap before the program allocates anything. */
  function EmptyHeap<T>(): Heap<T> {
    Heap(map[], multiset{}, multiset{}, false)
  }

  /** The addresses a raw pointer refers to: none for `nullptr`, one otherwise. */
  function AddrsOf(p: RawPtr): (r: set<Addr>)
    ensures p == None <==> r == {}
    ensures forall a :: a in r <==> p == Some(a)
  {
    match p
    case None => {}
    case Some(a) => {a}
  }

  /**
   * The allocation bookkeeping adds up: every allocation handed out is either
   * still live or has been deleted, and each exactly once.
   */
  ghost predicate Balanced<T>(h: Heap<T>) {
    forall a :: h.allocations[a] == h.deletions[a] + (if a in h.objects then 1 else 0)
  }

  /**
   * `new T{args}`: constructs `value` at `place`, the address the allocator
   * hands out. The allocator never hands out an address that holds a live
   * object, though it may reuse one that was freed.
   */
  function New<T>(h: Heap<T>, value: T, place: Addr): (r: Heap<T>)
    requires place !in h.objects
    ensures r.objects.Keys == h.objects.Keys + {place}
    ensures r.objects[place] == value
    ensures forall a :: a in h.objects ==> r.objects[a] == h.objects[a]
    ensures r.allocations == h.allocations + multiset{place}
    ensures r.deletions == h.deletions && r.badDelete == h.badDelete
    ensures Balanced(h) ==> Balanced(r)
  {
    Heap(h.objects[place := value], h.allocations + multiset{place}, h.deletions, h.badDelete)
  }

  /**
   * `delete p`: a no-op on `nullptr`; otherwise destroys the object at the
   * address. Deleting an address that holds no live object is recorded in
   * `badDelete`.
   */
  function Delete<T>(h: Heap<T>, p: RawPtr): (r: Heap<T>)
    ensures p == None ==> r == h
    ensures r.objects.Keys == h.objects.Keys - AddrsOf(p)
    ensures forall a :: a in r.objects ==> r.objects[a] == h.objects[a]
    ensures forall a :: r.deletions[a] == h.deletions[a] + (if p == Some(a) then 1 else 0)
    ensures r.allocations == h.allocations
    ensures r.badDelete <==> h.badDelete || (p.Some? && p.value !in h.objects)
  {
    match p
    case None => h
    case Some(a) =>
      Heap(h.objects - {a}, h.allocations, h.deletions + multiset{a},
           h.badDelete || a !in h.objects)
  }

  /** Deleting a live object keeps the allocation bookkeeping balanced. */
  lemma DeleteLiveKeepsBalanced<T>(h: Heap<T>, p: RawPtr)
    requires Balanced(h)
    requires p == None || p.value in h.objects
    ensures Balanced(Delete(h, p))
  {
  }

  /** Deleting what was just allocated restores the live objects and counts one deletion. */
  lemma NewThenDeleteRestores<T>(h: Heap<T>, value: T, place: Addr)
    requires place !in h.objects
    ensures Delete(New(h, value, place), Some(place)).objects == h.objects
    ensures Delete(New(h, value, place), Some(place)).deletions == h.deletions + multiset{place}
    ensures !Delete(New(h, value, place), Some(place)).badDelete <==> !h.badDelete
  {
    var r := Delete(New(h, value, place), Some(place));
    assert r.objects.Keys == h.objects.Keys;
  }

  /** A second `delete` of the same address, with no allocation in between, is a bad delete. */
  lemma DeleteTwiceIsBad<T>(h: Heap<T>, a: Addr)
    ensures Delete(Delete(h, Some(a)), Some(a)).badDelete
    ensures Delete(Delete(h, Some(a)), Some(a)).deletions[a] == h.deletions[a] + 2
  {
  }
}

=== FILE: ownership.dfy ===
/**
 * Many `Pointer<T>` objects over one heap. Each live `Pointer<T>` occupies a
 * slot; the program may also hold raw owning `T*` values outside any Pointer
 * (allocated with a plain `new`, or handed back by `release()`), which it must
 * eventually delete or adopt. The invariant `Good` says every live object has
 * exactly one owner and every owner's object is live, and each operation of
 * `Pointer<T>` preserves it as long as the caller keeps the class's one
 * unchecked rule: a pointer passed to the adopting constructor or to `reset()`
 * is null or owned by the caller.
 */
module Ownership {
  import opened Wrappers
  import opened Memory
  import P = Pointers

  /** Identifies one `Pointer<T>` object for as long as it lives. */
  type SlotId = nat

  /** The heap, the live `Pointer<T>` objects, and the raw owning pointers the program holds. */
  datatype World<T> = World(heap: Heap<T>, slots: map<SlotId, P.Pointer>, raw: set<Addr>)

  /** The addresses stored in some slot. */
  function OwnedBy(slots: map<SlotId, P.Pointer>): set<Addr> {
    set s | s in slots && slots[s].stored.Some? :: slots[s].stored.value
  }

  /** No two slots store the same non-null address. */
  ghost predicate Exclusive(slots: map<SlotId, P.Pointer>) {
    forall s, t :: s in slots && t in slots && s != t && slots[s].stored.Some? ==>
      slots[s].stored != slots[t].stored
  }

  /**
   * The ownership invariant: every address is owned by at most one slot; the
   * live objects are exactly those owned by a slot or held raw by the program,
   * and never by both (no leak, no dangling slot); the allocation bookkeeping
   * balances; and no `delete` has yet hit a dead address.
   */
  ghost predicate Good<T>(w: World<T>) {
    && Exclusive(w.slots)
    && OwnedBy(w.slots) !! w.raw
    && w.heap.objects.Keys == OwnedBy(w.slots) + w.raw
    && Balanced(w.heap)
    && !w.heap.badDelete
  }

  /** A program that has not yet allocated or declared anything. */
  function EmptyWorld<T>(): (w: World<T>)
    ensures Good(w)
    ensures w.slots == map[] && w.raw == {} && w.heap.objects == map[]
  {
    World(EmptyHeap(), map[], {})
  }

  /** Every slot outside `named` is still there and holds what it held. */
  ghost predicate OthersKept(before: map<SlotId, P.Pointer>, after: map<SlotId, P.Pointer>,
                             named: set<SlotId>) {
    forall t :: t in before && t !in named ==> t in after && after[t] == before[t]
  }

  // The operations, applied to slots.

  /** Declares `Pointer<T> p;` or `Pointer<T> p{nullptr};` in slot `s`. */
  function DeclareNull<T>(w: World<T>, s: SlotId): (r: World<T>)
    requires s !in w.slots
    ensures s in r.slots && P.EqualsNull(r.slots[s])
    ensures r.slots.Keys == w.slots.Keys + {s}
    ensures OthersKept(w.slots, r.slots, {s})
    ensures r.heap == w.heap
    ensures r.raw == w.raw
  {
    w.(slots := w.slots[s := P.Null()])
  }

  /** Declares `Pointer<T> p{raw};`: the program hands its raw pointer over to the new slot. */
  function DeclareAdopt<T>(w: World<T>, s: SlotId, raw: RawPtr): (r: World<T>)
    requires s !in w.slots
    ensures s in r.slots && P.Get(r.slots[s]) == raw
    ensures r.slots.Keys == w.slots.Keys + {s}
    ensures OthersKept(w.slots, r.slots, {s})
    ensures r.heap == w.heap
    ensures r.raw == w.raw - AddrsOf(raw)
  {
    World(w.heap, w.slots[s := P.Adopt(raw)], w.raw - AddrsOf(raw))
  }

  /** Declares `Pointer<T> p{InPlaceInit, args...};`, or `auto p = pointer<T>(args...);`. */
  function DeclareInPlace<T>(w: World<T>, s: SlotId, value: T, place: Addr): (r: World<T>)
    requires s !in w.slots
    requires place !in w.heap.objects
    ensures s in r.slots && P.Get(r.slots[s]) == Some(place)
    ensures r.slots.Keys == w.slots.Keys + {s}
    ensures OthersKept(w.slots, r.slots, {s})
    ensures r.heap.objects.Keys == w.heap.objects.Keys + {place}
    ensures r.heap.objects[place] == value
    ensures forall a :: a in w.heap.objects ==> r.heap.objects[a] == w.heap.objects[a]
    ensures r.heap.allocations == w.heap.allocations + multiset{place}
    ensures r.heap.deletions == w.heap.deletions
    ensures r.heap.badDelete == w.heap.badDelete
    ensures r.raw == w.raw
  {
    var (h, p) := P.MakeInPlace(w.heap, value, place);
    World(h, w.slots[s := p], w.raw)
  }

  /** Declares `Pointer<T> p{std::move(q)};` where `q` lives in slot `from`. */
  function DeclareMoved<T>(w: World<T>, s: SlotId, from: SlotId): (r: World<T>)
    requires s !in w.slots && from in w.slots
    ensures s in r.slots && from in r.slots
    ensures P.Get(r.slots[s]) == P.Get(w.slots[from])
    ensures P.EqualsNull(r.slots[from])
    ensures r.slots.Keys == w.slots.Keys + {s}
    ensures OthersKept(w.slots, r.slots, {s, from})
    ensures r.heap == w.heap
    ensures r.raw == w.raw
  {
    var (p, other) := P.MoveConstruct(w.slots[from]);
    w.(slots := w.slots[s := p][from := other])
  }

  /** `p = std::move(q)` with `p` in slot `dst` and `q` in slot `src`, which may be the same slot. */
  function MoveAssign<T>(w: World<T>, dst: SlotId, src: SlotId): (r: World<T>)
    requires dst in w.slots && src in w.slots
    ensures r.slots.Keys == w.slots.Keys
    ensures P.Get(r.slots[dst]) == P.Get(w.slots[src])
    ensures P.Get(r.slots[src]) == P.Get(w.slots[dst])
    ensures OthersKept(w.slots, r.slots, {dst, src})
    ensures r.heap == w.heap
    ensures r.raw == w.raw
  {
    var (d, o) := P.MoveAssign(w.slots[dst], w.slots[src]);
    w.(slots := w.slots[dst := d][src := o])
  }

  /** `p.reset(raw)`: the program hands its raw pointer over to slot `s`. */
  function Reset<T>(w: World<T>, s: SlotId, raw: RawPtr): (r: World<T>)
    requires s in w.slots
    ensures s in r.slots && P.Get(r.slots[s]) == raw
    ensures r.slots.Keys == w.slots.Keys
    ensures OthersKept(w.slots, r.slots, {s})
    ensures forall a :: r.heap.deletions[a] ==
              w.heap.deletions[a] + (if P.Get(w.slots[s]) == Some(a) then 1 else 0)
    ensures r.heap.objects.Keys == w.heap.objects.Keys - AddrsOf(P.Get(w.slots[s]))
    ensures forall a :: a in r.heap.objects ==> r.heap.objects[a] == w.heap.objects[a]
    ensures r.heap.allocations == w.heap.allocations
    ensures r.heap.badDelete <==>
              w.heap.badDelete || (P.ToBool(w.slots[s]) && P.Arrow(w.slots[s]) !in w.heap.objects)
    ensures r.raw == w.raw - AddrsOf(raw)
  {
    var (h, p) := P.Reset(w.heap, w.slots[s], raw);
    World(h, w.slots[s := p], w.raw - AddrsOf(raw))
  }

  /** `p.emplace(args...)`: returns the new world and the address of the new object. */
  function Emplace<T>(w: World<T>, s: SlotId, value: T, place: Addr): (r: (World<T>, Addr))
    requires s in w.slots
    requires place !in P.Destroy(w.heap, w.slots[s]).objects
    ensures r.1 == place
    ensures s in r.0.slots && P.Get(r.0.slots[s]) == Some(r.1)
    ensures r.0.slots.Keys == w.slots.Keys
    ensures OthersKept(w.slots, r.0.slots, {s})
    ensures r.1 in r.0.heap.objects && r.0.heap.objects[r.1] == value
    ensures r.0.heap.objects.Keys ==
              (w.heap.objects.Keys - AddrsOf(P.Get(w.slots[s]))) + {r.1}
    ensures forall a :: r.0.heap.deletions[a] ==
              w.heap.deletions[a] + (if P.Get(w.slots[s]) == Some(a) then 1 else 0)
    ensures forall a :: a in r.0.heap.objects && a != r.1 ==> r.0.heap.objects[a] == w.heap.objects[a]
    ensures r.0.heap.allocations == w.heap.allocations + multiset{r.1}
    ensures r.0.heap.badDelete <==>
              w.heap.badDelete || (P.ToBool(w.slots[s]) && P.Arrow(w.slots[s]) !in w.heap.objects)
    ensures r.0.raw == w.raw
  {
    var (h, p, a) := P.Emplace(w.heap, w.slots[s], value, place);
    (World(h, w.slots[s := p], w.raw), a)
  }

  /** `p.release()`: the program takes the stored pointer back as a raw owning pointer. */
  function Release<T>(w: World<T>, s: SlotId): (r: (World<T>, RawPtr))
    requires s in w.slots
    ensures r.1 == P.Get(w.slots[s])
    ensures s in r.0.slots && P.EqualsNull(r.0.slots[s])
    ensures r.0.slots.Keys == w.slots.Keys
    ensures OthersKept(w.slots, r.0.slots, {s})
    ensures r.0.heap == w.heap
    ensures r.0.raw == w.raw + AddrsOf(r.1)
  {
    var (p, out) := P.Release(w.slots[s]);
    (World(w.heap, w.slots[s := p], w.raw + AddrsOf(out)), out)
  }

  /** The end of the lifetime of the `Pointer<T>` in slot `s`. */
  function Destroy<T>(w: World<T>, s: SlotId): (r: World<T>)
    requires s in w.slots
    ensures r.slots.Keys == w.slots.Keys - {s}
    ensures OthersKept(w.slots, r.slots, {s})
    ensures forall a :: r.heap.deletions[a] ==
              w.heap.deletions[a] + (if P.Get(w.slots[s]) == Some(a) then 1 else 0)
    ensures r.heap.objects.Keys == w.heap.objects.Keys - AddrsOf(P.Get(w.slots[s]))
    ensures forall a :: a in r.heap.objects ==> r.heap.objects[a] == w.heap.objects[a]
    ensures r.heap.allocations == w.heap.allocations
    ensures r.heap.badDelete <==>
              w.heap.badDelete || (P.ToBool(w.slots[s]) && P.Arrow(w.slots[s]) !in w.heap.objects)
    ensures r.raw == w.raw
  {
    World(P.Destroy(w.heap, w.slots[s]), w.slots - {s}, w.raw)
  }

  /** A plain `new T{args}` by the program, kept as a raw owning pointer. */
  function NewRaw<T>(w: World<T>, value: T, place: Addr): (r: World<T>)
    requires place !in w.heap.objects
    ensures r.raw == w.raw + {place}
    ensures r.slots == w.slots
    ensures r.heap.objects.Keys == w.heap.objects.Keys + {place}
    ensures r.heap.objects[place] == value
    ensures forall a :: a in w.heap.objects ==> r.heap.objects[a] == w.heap.objects[a]
    ensures r.heap.allocations == w.heap.allocations + multiset{place}
    ensures r.heap.deletions == w.heap.deletions
    ensures r.heap.badDelete == w.heap.badDelete
  {
    World(New(w.heap, value, place), w.slots, w.raw + {place})
  }

  /** A plain `delete a` by the program. */
  function DeleteRaw<T>(w: World<T>, a: Addr): (r: World<T>)
    ensures r.raw == w.raw - {a}
    ensures r.slots == w.slots
    ensures r.heap.deletions[a] == w.heap.deletions[a] + 1
    ensures forall b :: b != a ==> r.heap.deletions[b] == w.heap.deletions[b]
    ensures r.heap.objects.Keys == w.heap.objects.Keys - {a}
    ensures forall b :: b in r.heap.objects ==> r.heap.objects[b] == w.heap.objects[b]
    ensures r.heap.allocations == w.heap.allocations
    ensures r.heap.badDelete <==> w.heap.badDelete || a !in w.heap.objects
  {
    World(Delete(w.heap, Some(a)), w.slots, w.raw - {a})
  }

  // Facts about OwnedBy and Exclusive.

  /** Splitting one slot off: its address and the addresses of the rest. */
  lemma OwnedSplit(slots: map<SlotId, P.Pointer>, s: SlotId)
    requires s in slots
    ensures OwnedBy(slots) == OwnedBy(slots - {s}) + AddrsOf(slots[s].stored)
    ensures Exclusive(slots) ==> Exclusive(slots - {s})
    ensures Exclusive(slots) ==> OwnedBy(slots - {s}) !! AddrsOf(slots[s].stored)
  {
    var rest := slots - {s};
    forall a | a in OwnedBy(slots)
      ensures a in OwnedBy(rest) + AddrsOf(slots[s].stored)
    {
      var t :| t in slots && slots[t].stored == Some(a);
      if t != s {
        assert t in rest && rest[t].stored == Some(a);
      }
    }
    forall a | a in OwnedBy(rest)
      ensures a in OwnedBy(slots)
    {
      var t :| t in rest && rest[t].stored == Some(a);
      assert t in slots && slots[t].stored == Some(a);
    }
    if Exclusive(slots) {
      forall a | a in OwnedBy(rest)
        ensures a !in AddrsOf(slots[s].stored)
      {
        var t :| t in rest && rest[t].stored == Some(a);
        assert t != s && slots[t].stored == Some(a);
      }
    }
  }

  /** Storing `p` in slot `s` (new or existing) replaces whatever `s` contributed. */
  lemma OwnedUpdate(slots: map<SlotId, P.Pointer>, s: SlotId, p: P.Pointer)
    ensures OwnedBy(slots[s := p]) == OwnedBy(slots - {s}) + AddrsOf(p.stored)
    ensures Exclusive(slots - {s}) && AddrsOf(p.stored) !! OwnedBy(slots - {s})
            ==> Exclusive(slots[s := p])
  {
    var updated := slots[s := p];
    OwnedSplit(updated, s);
    assert updated - {s} == slots - {s};
    if Exclusive(slots - {s}) && AddrsOf(p.stored) !! OwnedBy(slots - {s}) {
      forall t, u | t in updated && u in updated && t != u && updated[t].stored.Some?
        ensures updated[t].stored != updated[u].stored
      {
        if t == s {
          assert u in slots - {s} && updated[u] == slots[u];
        } else if u == s {
          assert t in slots - {s} && updated[t] == slots[t];
          assert p.stored != updated[t].stored by {
            assert updated[t].stored.value in OwnedBy(slots - {s});
          }
        } else {
          assert t in slots - {s} && u in slots - {s};
          assert updated[t] == (slots - {s})[t] && updated[u] == (slots - {s})[u];
        }
      }
    }
  }

  /** Exchanging the contents of two slots changes neither what is owned nor exclusivity. */
  lemma SwapKeepsOwnership(slots: map<SlotId, P.Pointer>, dst: SlotId, src: SlotId)
    requires dst in slots && src in slots && dst != src
    ensures OwnedBy(slots[dst := slots[src]][src := slots[dst]]) == OwnedBy(slots)
    ensures Exclusive(slots) ==> Exclusive(slots[dst := slots[src]][src := slots[dst]])
  {
    var swapped := slots[dst := slots[src]][src := slots[dst]];
    // The slot whose old contents slot `t` now holds.
    var origin := (t: SlotId) => if t == dst then src else if t == src then dst else t;
    assert forall t :: t in swapped ==> origin(t) in slots && swapped[t] == slots[origin(t)];
    forall a | a in OwnedBy(swapped)
      ensures a in OwnedBy(slots)
    {
      var t :| t in swapped && swapped[t].stored == Some(a);
      assert slots[origin(t)].stored == Some(a);
    }
    forall a | a in OwnedBy(slots)
      ensures a in OwnedBy(swapped)
    {
      var t :| t in slots && slots[t].stored == Some(a);
      assert origin(origin(t)) == t && swapped[origin(t)].stored == Some(a);
    }
  }

  // The operations preserve the ownership invariant.

  lemma DeclareNullKeepsGood<T>(w: World<T>, s: SlotId)
    requires Good(w) && s !in w.slots
    ensures Good(DeclareNull(w, s))
  {
    assert w.slots - {s} == w.slots;
    OwnedUpdate(w.slots, s, P.Null());
  }

  /** Adopting keeps the invariant when the adopted pointer is null or owned raw by the program. */
  lemma DeclareAdoptKeepsGood<T>(w: World<T>, s: SlotId, raw: RawPtr)
    requires Good(w) && s !in w.slots
    requires raw == None || raw.value in w.raw
    ensures Good(DeclareAdopt(w, s, raw))
  {
    assert w.slots - {s} == w.slots;
    OwnedUpdate(w.slots, s, P.Adopt(raw));
  }

  /** Allocating a new object into a slot that is new or empty keeps the invariant. */
  lemma AllocateIntoKeepsGood<T>(w: World<T>, s: SlotId, value: T, place: Addr)
    requires Good(w) && place !in w.heap.objects
    requires s !in w.slots || P.EqualsNull(w.slots[s])
    ensures Good(World(New(w.heap, value, place), w.slots[s := P.Pointer(Some(place))], w.raw))
  {
    var p := P.Pointer(Some(place));
    var r := World(New(w.heap, value, place), w.slots[s := p], w.raw);
    assert OwnedBy(r.slots) == OwnedBy(w.slots) + {place} && Exclusive(r.slots) by {
      if s in w.slots {
        OwnedSplit(w.slots, s);
      } else {
        assert w.slots - {s} == w.slots;
      }
      OwnedUpdate(w.slots, s, p);
    }
  }

  lemma DeclareInPlaceKeepsGood<T>(w: World<T>, s: SlotId, value: T, place: Addr)
    requires Good(w) && s !in w.slots && place !in w.heap.objects
    ensures Good(DeclareInPlace(w, s, value, place))
  {
    AllocateIntoKeepsGood(w, s, value, place);
  }

  lemma DeclareMovedKeepsGood<T>(w: World<T>, s: SlotId, from: SlotId)
    requires Good(w) && s !in w.slots && from in w.slots
    ensures Good(DeclareMoved(w, s, from))
  {
    var mid := w.slots[s := w.slots[from]];
    assert mid - {s} == w.slots;
    OwnedSplit(w.slots, from);
    OwnedUpdate(w.slots, s, w.slots[from]);
    OwnedSplit(mid, from);
    assert mid - {from} == (w.slots - {from})[s := w.slots[from]];
    OwnedUpdate(w.slots - {from}, s, w.slots[from]);
    assert (w.slots - {from}) - {s} == w.slots - {from};
    OwnedUpdate(mid, from, P.Null());
  }

  lemma MoveAssignKeepsGood<T>(w: World<T>, dst: SlotId, src: SlotId)
    requires Good(w) && dst in w.slots && src in w.slots
    ensures Good(MoveAssign(w, dst, src))
  {
    if dst == src {
      SelfMoveAssignUnchanged(w, dst);
    } else {
      SwapKeepsOwnership(w.slots, dst, src);
    }
  }

  /** `reset()` keeps the invariant when the new pointer is null or owned raw by the program. */
  lemma ResetKeepsGood<T>(w: World<T>, s: SlotId, raw: RawPtr)
    requires Good(w) && s in w.slots
    requires raw == None || raw.value in w.raw
    ensures Good(Reset(w, s, raw))
  {
    OwnedSplit(w.slots, s);
    OwnedUpdate(w.slots, s, P.Adopt(raw));
    DeleteLiveKeepsBalanced(w.heap, w.slots[s].stored);
  }

  /** `emplace()` is `reset(nullptr)` followed by an allocation into the emptied slot. */
  lemma EmplaceKeepsGood<T>(w: World<T>, s: SlotId, value: T, place: Addr)
    requires Good(w) && s in w.slots
    requires place !in P.Destroy(w.heap, w.slots[s]).objects
    ensures Good(Emplace(w, s, value, place).0)
  {
    var emptied := Reset(w, s, None);
    ResetKeepsGood(w, s, None);
    AllocateIntoKeepsGood(emptied, s, value, place);
    var p := P.Pointer(Some(place));
    assert emptied.heap == Delete(w.heap, w.slots[s].stored);
    assert emptied.slots[s := p] == w.slots[s := p];
    assert Emplace(w, s, value, place).0 == World(New(emptied.heap, value, place), emptied.slots[s := p], emptied.raw);
  }

  lemma ReleaseKeepsGood<T>(w: World<T>, s: SlotId)
    requires Good(w) && s in w.slots
    ensures Good(Release(w, s).0)
  {
    OwnedSplit(w.slots, s);
    OwnedUpdate(w.slots, s, P.Null());
  }

  lemma DestroyKeepsGood<T>(w: World<T>, s: SlotId)
    requires Good(w) && s in w.slots
    ensures Good(Destroy(w, s))
    ensures OwnedBy(Destroy(w, s).slots) == OwnedBy(w.slots) - AddrsOf(P.Get(w.slots[s]))
  {
    OwnedSplit(w.slots, s);
    DeleteLiveKeepsBalanced(w.heap, w.slots[s].stored);
  }

  lemma NewRawKeepsGood<T>(w: World<T>, value: T, place: Addr)
    requires Good(w) && place !in w.heap.objects
    ensures Good(NewRaw(w, value, place))
  {
  }

  /** Deleting a raw pointer keeps the invariant when the program owns it. */
  lemma DeleteRawKeepsGood<T>(w: World<T>, a: Addr)
    requires Good(w) && a in w.raw
    ensures Good(DeleteRaw(w, a))
  {
    DeleteLiveKeepsBalanced(w.heap, Some(a));
  }

  // Consequences for single slots.

  /** Self-move-assignment changes nothing at all. */
  lemma SelfMoveAssignUnchanged<T>(w: World<T>, s: SlotId)
    requires s in w.slots
    ensures MoveAssign(w, s, s) == w
  {
    assert w.slots[s := w.slots[s]][s := w.slots[s]] == w.slots;
  }

  /**
   * In a good world every non-null slot refers to a live object, so
   * dereferencing a non-null pointer always reaches an object.
   */
  lemma OwnedIsLive<T>(w: World<T>, s: SlotId)
    requires Good(w) && s in w.slots && P.ToBool(w.slots[s])
    ensures P.Deref(w.slots[s]) in w.heap.objects
    ensures P.Deref(w.slots[s]) !in w.raw
  {
    assert P.Deref(w.slots[s]) in OwnedBy(w.slots);
  }

  /**
   * `release()`, adopting the result into a new slot `t`, and the end of
   * both pointers' lifetimes delete the released object exactly once.
   */
  lemma ReleaseAdoptDestroyDeletesOnce<T>(w: World<T>, s: SlotId, t: SlotId)
    requires Good(w) && s in w.slots && t !in w.slots && P.ToBool(w.slots[s])
    ensures var a := P.Arrow(w.slots[s]);
            var (w1, out) := Release(w, s);
            var w2 := DeclareAdopt(w1, t, out);
            var w3 := Destroy(Destroy(w2, t), s);
            && w3.heap.deletions[a] == w.heap.deletions[a] + 1
            && a !in w3.heap.objects
            && Good(w3)
  {
    var (w1, out) := Release(w, s);
    ReleaseKeepsGood(w, s);
    DeclareAdoptKeepsGood(w1, t, out);
    var w2 := DeclareAdopt(w1, t, out);
    DestroyKeepsGood(w2, t);
    DestroyKeepsGood(Destroy(w2, t), s);
  }
}

=== FILE: pointers.dfy ===
/**
 * `Containers::Pointer<T>`: a move-only owning pointer. Its one member is the
 * stored raw pointer, so it is either Empty (`nullptr`) or Owning (one heap
 * object). Operations that only inspect or move the stored pointer are pure
 * functions of it; those that call `new` or `delete` also take and return the
 * heap. A member that updates `*this` returns the new value of `*this`, and a
 * member that also updates its argument (the move operations) returns that too.
 *
 * Compile-time rules of the C++ class have no runtime counterpart here: `T`
 * may not be an array type, copy construction and copy assignment are deleted
 * (so there are simply no such functions). `pointer(T*)` rejects element
 * types constructible from their own pointer type, and `pointer(args...)`
 * rejects them only when its only argument is a `T*`.
 */
module Pointers {
  import opened Wrappers
  import opened Memory

  /** `Pointer<T>`, holding `_pointer`. */
  datatype Pointer = Pointer(stored: RawPtr)

  // Observers. None of them changes any state: they take no heap and return
  // no new pointer.

  /** `p == nullptr`. */
  function EqualsNull(p: Pointer): (b: bool)
    ensures b <==> Get(p) == None
  {
    p.stored.None?
  }

  /** `p != nullptr`: the stored pointer converted to `bool`. */
  function NotEqualsNull(p: Pointer): (b: bool)
    ensures b <==> !EqualsNull(p)
    ensures b <==> Get(p) != None
  {
    p.stored.Some?
  }

  /** The free `nullptr == p`, defined as `p == nullptr`. */
  function NullEquals(p: Pointer): (b: bool)
    ensures b <==> Get(p) == None
  {
    EqualsNull(p)
  }

  /** The free `nullptr != p`, defined as `p != nullptr`. */
  function NullNotEquals(p: Pointer): (b: bool)
    ensures b <==> !NullEquals(p)
    ensures b <==> Get(p) != None
  {
    NotEqualsNull(p)
  }

  /** `explicit operator bool()`. */
  function ToBool(p: Pointer): (b: bool)
    ensures b <==> NotEqualsNull(p)
    ensures b <==> Get(p) != None
  {
    p.stored.Some?
  }

  /**
   * `get()`, both the mutable and the const overload. The stored pointer is
   * the whole state of a `Pointer`, so `get()` determines it.
   */
  function Get(p: Pointer): (r: RawPtr)
    ensures Pointer(r) == p
  {
    p.stored
  }

  /**
   * `operator->()`, both overloads: the stored address. Dereferencing an
   * empty pointer is a failed assertion in `Pointer.h`, so it is a
   * precondition here.
   */
  function Arrow(p: Pointer): (a: Addr)
    requires ToBool(p)
    ensures Get(p) == Some(a)
  {
    p.stored.value
  }

  /** `operator*()`, both overloads: a reference to the owned object, which is its address. */
  function Deref(p: Pointer): (a: Addr)
    requires ToBool(p)
    ensures Get(p) == Some(a)
    ensures a == Arrow(p)
  {
    p.stored.value
  }

  /** The value of the object `*p` refers to, in heap `h`. */
  function Value<T>(h: Heap<T>, p: Pointer): T
    requires ToBool(p) && Deref(p) in h.objects
  {
    h.objects[p.stored.value]
  }

  // Construction.

  /** The default constructor and the implicit one from `nullptr`; allocates nothing. */
  function Null(): (p: Pointer)
    ensures EqualsNull(p) && Get(p) == None
  {
    Pointer(None)
  }

  /** `explicit Pointer(T*)`: takes ownership of exactly the passed pointer, which may be null. */
  function Adopt(raw: RawPtr): (p: Pointer)
    ensures Get(p) == raw
    ensures ToBool(p) <==> raw != None
  {
    Pointer(raw)
  }

  /**
   * `Pointer(InPlaceInit, args...)`: allocates a new object, constructed to
   * `value`, at the address `place` the allocator hands out.
   */
  function InPlace<T>(h: Heap<T>, value: T, place: Addr): (r: (Heap<T>, Pointer))
    requires place !in h.objects
    ensures Get(r.1) == Some(place)
    ensures r.0.objects.Keys == h.objects.Keys + {place}
    ensures Value(r.0, r.1) == value
    ensures forall a :: a in h.objects ==> r.0.objects[a] == h.objects[a]
    ensures r.0.allocations == h.allocations + multiset{place}
    ensures r.0.deletions == h.deletions
    ensures r.0.badDelete == h.badDelete
  {
    (New(h, value, place), Pointer(Some(place)))
  }

  /**
   * The move constructor: returns the new pointer and the moved-from
   * `other`. The new pointer holds what `other` held, `other` is left null,
   * and no heap is touched.
   */
  function MoveConstruct(other: Pointer): (r: (Pointer, Pointer))
    ensures Get(r.0) == Get(other)
    ensures EqualsNull(r.1)
  {
    (other, Pointer(None))
  }

  /**
   * Move assignment `*this = std::move(other)`, implemented by swapping the
   * two stored pointers: returns the new `*this` and the new `other`. Nothing
   * is deleted; the old value of `*this` is freed when `other` is destroyed.
   */
  function MoveAssign(self: Pointer, other: Pointer): (r: (Pointer, Pointer))
    ensures Get(r.0) == Get(other)
    ensures Get(r.1) == Get(self)
  {
    (other, self)
  }

  // Destruction and mutation.

  /** `~Pointer()`: `delete` on the stored pointer, which does nothing when it is null. */
  function Destroy<T>(h: Heap<T>, p: Pointer): (r: Heap<T>)
    ensures EqualsNull(p) ==> r == h
    ensures ToBool(p) ==> r.deletions[Arrow(p)] == h.deletions[Arrow(p)] + 1
    ensures forall a :: Get(p) != Some(a) ==> r.deletions[a] == h.deletions[a]
    ensures r.objects.Keys == h.objects.Keys - AddrsOf(Get(p))
    ensures forall a :: a in r.objects ==> r.objects[a] == h.objects[a]
    ensures r.allocations == h.allocations
    ensures r.badDelete <==> h.badDelete || (ToBool(p) && Arrow(p) !in h.objects)
  {
    Delete(h, p.stored)
  }

  /**
   * `reset(pointer)`: deletes the previously stored pointer, exactly as the
   * destructor would, and then stores `raw`.
   */
  function Reset<T>(h: Heap<T>, p: Pointer, raw: RawPtr): (r: (Heap<T>, Pointer))
    ensures r.0 == Destroy(h, p)
    ensures Get(r.1) == raw
  {
    (Delete(h, p.stored), Pointer(raw))
  }

  /**
   * `emplace(args...)`: deletes the previously stored pointer, then
   * allocates a new object constructed to `value` at the address `place` the
   * allocator hands out (which may be the address just freed), stores it and
   * returns a reference to it.
   */
  function Emplace<T>(h: Heap<T>, p: Pointer, value: T, place: Addr): (r: (Heap<T>, Pointer, Addr))
    requires place !in Destroy(h, p).objects
    ensures Get(r.1) == Some(r.2)
    ensures r.2 == place
    ensures r.0.objects.Keys == Destroy(h, p).objects.Keys + {place}
    ensures Value(r.0, r.1) == value
    ensures forall a :: a in Destroy(h, p).objects ==> r.0.objects[a] == h.objects[a]
    ensures r.0.allocations == h.allocations + multiset{place}
    ensures r.0.deletions == Destroy(h, p).deletions
    ensures r.0.badDelete == Destroy(h, p).badDelete
  {
    var h' := Delete(h, p.stored);
    (New(h', value, place), Pointer(Some(place)), place)
  }

  /**
   * `release()`: returns the stored pointer and leaves this pointer null;
   * nothing is deleted (the function takes no heap).
   */
  function Release(p: Pointer): (r: (Pointer, RawPtr))
    ensures r.1 == Get(p)
    ensures EqualsNull(r.0)
  {
    (Pointer(None), p.stored)
  }

  // The `pointer()` factories.

  /** `pointer(T*)`: the same as the adopting constructor. */
  function MakeFromRaw(raw: RawPtr): (p: Pointer)
    ensures p == Adopt(raw)
  {
    Pointer(raw)
  }

  /** `pointer(args...)`: the same as the in-place constructor. */
  function MakeInPlace<T>(h: Heap<T>, value: T, place: Addr): (r: (Heap<T>, Pointer))
    requires place !in h.objects
    ensures r == InPlace(h, value, place)
  {
    (New(h, value, place), Pointer(Some(place)))
  }

  // Properties relating the operations to each other.

  /**
   * The member null tests agree: `== nullptr` holds exactly when `get()` is
   * null, `!= nullptr` is its negation, and `bool` conversion is `!= nullptr`.
   * This only collects, in one place, what the contracts of `EqualsNull`,
   * `NotEqualsNull` and `ToBool` already state.
   */
  lemma MemberNullTestsAgree(p: Pointer)
    ensures EqualsNull(p) <==> Get(p) == None
    ensures NotEqualsNull(p) <==> !EqualsNull(p)
    ensures ToBool(p) <==> NotEqualsNull(p)
  {
  }

  /**
   * The free `nullptr == p` and `nullptr != p` agree with the member forms in
   * both operand orders. Like the lemma above, it collects what the contracts
   * of `NullEquals` and `NullNotEquals` already state.
   */
  lemma FreeNullTestsAgree(p: Pointer)
    ensures NullEquals(p) <==> EqualsNull(p)
    ensures NullNotEquals(p) <==> NotEqualsNull(p)
    ensures NullEquals(p) <==> !NullNotEquals(p)
  {
  }

  /** Releasing and adopting the result again gives back the same pointer. */
  lemma ReleaseThenAdopt(p: Pointer)
    ensures Adopt(Release(p).1) == p
  {
  }

  /** Moving a pointer out and back again restores both pointers. */
  lemma MoveAssignTwiceRestores(a: Pointer, b: Pointer)
    ensures var (a', b') := MoveAssign(a, b); MoveAssign(a', b') == (a, b)
  {
  }

  /**
   * Self-move-assignment `p = std::move(p)`: `*this` and `other` are the same
   * object, so the swap writes back the value it read.
   */
  lemma SelfMoveAssignUnchanged(p: Pointer)
    ensures MoveAssign(p, p).0 == p && MoveAssign(p, p).1 == p
  {
  }

  /** `reset(nullptr)` destroys the owned object and leaves the pointer empty. */
  lemma ResetNullEmpties<T>(h: Heap<T>, p: Pointer)
    ensures Reset(h, p, None) == (Destroy(h, p), Null())
  {
  }

  /** `emplace(args...)` behaves as `reset()` of a pointer built in place on the heap `reset` leaves. */
  lemma EmplaceIsResetInPlace<T>(h: Heap<T>, p: Pointer, value: T, place: Addr)
    requires place !in Destroy(h, p).objects
    ensures var (h', q, _) := Emplace(h, p, value, place);
            (h', q) == InPlace(Reset(h, p, None).0, value, place)
  {
  }

  /**
   * Releasing, adopting the result into a new pointer and destroying that
   * pointer deletes the released object exactly once, and destroying the
   * released (now empty) pointer deletes nothing more.
   */
  lemma ReleaseAdoptDestroyDeletesOnce<T>(h: Heap<T>, p: Pointer)
    requires ToBool(p)
    ensures var (emptied, raw) := Release(p);
            var h' := Destroy(Destroy(h, Adopt(raw)), emptied);
            h'.deletions[Arrow(p)] == h.deletions[Arrow(p)] + 1
            && Arrow(p) !in h'.objects
  {
  }
}

=== FILE: traces.dfy ===
/**
 * Whole programs over `Pointer<T>`: a program is a sequence of operations on
 * slots. Any program that keeps the caller's side of the contract keeps the
 * ownership invariant, and when every pointer's lifetime ends with no raw
 * owning pointer left over, every allocation has been deleted exactly once.
 */
module Traces {
  import opened Wrappers
  import opened Memory
  import P = Pointers
  import O = Ownership

  /** One step of a program: an operation of `Pointer<T>`, or a plain `new`/`delete` by the program. */
  datatype Op<T> =
    | DeclareNull(s: O.SlotId)
    | DeclareAdopt(s: O.SlotId, raw: RawPtr)
    | DeclareInPlace(s: O.SlotId, value: T, place: Addr)
    | DeclareMoved(s: O.SlotId, from: O.SlotId)
    | MoveAssign(dst: O.SlotId, src: O.SlotId)
    | Reset(s: O.SlotId, raw: RawPtr)
    | Emplace(s: O.SlotId, value: T, place: Addr)
    | Release(s: O.SlotId)
    | Destroy(s: O.SlotId)
    | NewRaw(value: T, place: Addr)
    | DeleteRaw(a: Addr)

  /**
   * When `op` may run in `w`: the objects it names exist (or, for a
   * declaration, do not yet), the allocator hands out an address holding no
   * live object, and whatever the program hands to a Pointer or deletes
   * itself is null or a raw pointer it owns.
   */
  ghost predicate Allowed<T>(w: O.World<T>, op: Op<T>) {
    match op
    case DeclareNull(s) => s !in w.slots
    case DeclareAdopt(s, raw) => s !in w.slots && (raw == None || raw.value in w.raw)
    case DeclareInPlace(s, _, place) => s !in w.slots && place !in w.heap.objects
    case DeclareMoved(s, from) => s !in w.slots && from in w.slots
    case MoveAssign(dst, src) => dst in w.slots && src in w.slots
    case Reset(s, raw) => s in w.slots && (raw == None || raw.value in w.raw)
    case Emplace(s, _, place) => s in w.slots && place !in P.Destroy(w.heap, w.slots[s]).objects
    case Release(s) => s in w.slots
    case Destroy(s) => s in w.slots
    case NewRaw(_, place) => place !in w.heap.objects
    case DeleteRaw(a) => a in w.raw
  }

  /** The world after one step. */
  function Apply<T>(w: O.World<T>, op: Op<T>): O.World<T>
    requires Allowed(w, op)
  {
    match op
    case DeclareNull(s) => O.DeclareNull(w, s)
    case DeclareAdopt(s, raw) => O.DeclareAdopt(w, s, raw)
    case DeclareInPlace(s, value, place) => O.DeclareInPlace(w, s, value, place)
    case DeclareMoved(s, from) => O.DeclareMoved(w, s, from)
    case MoveAssign(dst, src) => O.MoveAssign(w, dst, src)
    case Reset(s, raw) => O.Reset(w, s, raw)
    case Emplace(s, value, place) => O.Emplace(w, s, value, place).0
    case Release(s) => O.Release(w, s).0
    case Destroy(s) => O.Destroy(w, s)
    case NewRaw(value, place) => O.NewRaw(w, value, place)
    case DeleteRaw(a) => O.DeleteRaw(w, a)
  }

  /** Every step of `ops`, run from `w`, is allowed where it runs. */
  ghost predicate AllowedRun<T>(w: O.World<T>, ops: seq<Op<T>>)
    decreases |ops|
  {
    |ops| == 0 || (Allowed(w, ops[0]) && AllowedRun(Apply(w, ops[0]), ops[1..]))
  }

  /** The world after running `ops` from `w`. */
  function Run<T>(w: O.World<T>, ops: seq<Op<T>>): O.World<T>
    requires AllowedRun(w, ops)
    decreases |ops|
  {
    if |ops| == 0 then w else Run(Apply(w, ops[0]), ops[1..])
  }

  /** Every allowed step keeps the ownership invariant. */
  lemma StepKeepsGood<T>(w: O.World<T>, op: Op<T>)
    requires O.Good(w) && Allowed(w, op)
    ensures O.Good(Apply(w, op))
  {
    match op
    case DeclareNull(s) => O.DeclareNullKeepsGood(w, s);
    case DeclareAdopt(s, raw) => O.DeclareAdoptKeepsGood(w, s, raw);
    case DeclareInPlace(s, value, place) => O.DeclareInPlaceKeepsGood(w, s, value, place);
    case DeclareMoved(s, from) => O.DeclareMovedKeepsGood(w, s, from);
    case MoveAssign(dst, src) => O.MoveAssignKeepsGood(w, dst, src);
    case Reset(s, raw) => O.ResetKeepsGood(w, s, raw);
    case Emplace(s, value, place) => O.EmplaceKeepsGood(w, s, value, place);
    case Release(s) => O.ReleaseKeepsGood(w, s);
    case Destroy(s) => O.DestroyKeepsGood(w, s);
    case NewRaw(value, place) => O.NewRawKeepsGood(w, value, place);
    case DeleteRaw(a) => O.DeleteRawKeepsGood(w, a);
  }

  /**
   * Every allowed program keeps the ownership invariant throughout: no
   * address is ever owned twice, no slot ever dangles, and no `delete` ever
   * hits a dead address.
   */
  lemma {:induction false} RunKeepsGood<T>(w: O.World<T>, ops: seq<Op<T>>)
    requires O.Good(w) && AllowedRun(w, ops)
    ensures O.Good(Run(w, ops))
    decreases |ops|
  {
    if |ops| > 0 {
      StepKeepsGood(w, ops[0]);
      RunKeepsGood(Apply(w, ops[0]), ops[1..]);
    }
  }

  /** The slots named in `order`, each once, all live in `w`. */
  ghost predicate DistinctSlots<T>(w: O.World<T>, order: seq<O.SlotId>) {
    && (forall i :: 0 <= i < |order| ==> order[i] in w.slots)
    && (forall i, j :: 0 <= i < j < |order| ==> order[i] != order[j])
  }

  /** The end of the lifetimes of the pointers in `order`, in that order. */
  function DestroyAll<T>(w: O.World<T>, order: seq<O.SlotId>): (r: O.World<T>)
    requires DistinctSlots(w, order)
    ensures forall s :: s in r.slots <==> s in w.slots && s !in order
    ensures r.raw == w.raw
    decreases |order|
  {
    if |order| == 0 then w
    else
      DestroyFirstKeepsDistinct(w, order);
      DestroyAll(O.Destroy(w, order[0]), order[1..])
  }

  /** Ending the lifetime of the first listed pointer leaves the rest listable. */
  lemma DestroyFirstKeepsDistinct<T>(w: O.World<T>, order: seq<O.SlotId>)
    requires DistinctSlots(w, order) && |order| > 0
    ensures DistinctSlots(O.Destroy(w, order[0]), order[1..])
    ensures forall t :: t in w.slots && t in order && t != order[0] ==> t in order[1..]
  {
    var next := O.Destroy(w, order[0]);
    forall i | 0 <= i < |order[1..]|
      ensures order[1..][i] in next.slots
    {
      assert order[1..][i] == order[i + 1] != order[0];
    }
    forall t | t in w.slots && t in order && t != order[0]
      ensures t in order[1..]
    {
      var i :| 0 <= i < |order| && order[i] == t;
      assert order[1..][i - 1] == t;
    }
  }

  /**
   * When every live pointer's lifetime ends, the invariant still holds, no
   * pointer is left, and only the raw owning pointers the program holds stay
   * live: every object a pointer owned has been deleted.
   */
  lemma {:induction false} DestroyAllKeepsGood<T>(w: O.World<T>, order: seq<O.SlotId>)
    requires O.Good(w) && DistinctSlots(w, order)
    requires forall s :: s in w.slots ==> s in order
    ensures O.Good(DestroyAll(w, order))
    ensures DestroyAll(w, order).slots == map[]
    ensures DestroyAll(w, order).heap.objects.Keys == w.raw
    decreases |order|
  {
    if |order| == 0 {
      assert w.slots == map[];
      assert O.OwnedBy(w.slots) == {};
    } else {
      O.DestroyKeepsGood(w, order[0]);
      DestroyFirstKeepsDistinct(w, order);
      DestroyAllKeepsGood(O.Destroy(w, order[0]), order[1..]);
    }
  }

  /**
   * Ending the lifetimes of the listed pointers deletes each object they own
   * exactly once and deletes nothing else.
   */
  lemma {:induction false} DestroyAllDeletesOwnedOnce<T>(w: O.World<T>, order: seq<O.SlotId>)
    requires O.Good(w) && DistinctSlots(w, order)
    requires forall s :: s in w.slots ==> s in order
    ensures forall a :: DestroyAll(w, order).heap.deletions[a] ==
              w.heap.deletions[a] + (if a in O.OwnedBy(w.slots) then 1 else 0)
    decreases |order|
  {
    if |order| == 0 {
      assert w.slots == map[];
      assert O.OwnedBy(w.slots) == {};
    } else {
      var s := order[0];
      O.DestroyKeepsGood(w, s);
      O.OwnedSplit(w.slots, s);
      DestroyFirstKeepsDistinct(w, order);
      DestroyAllDeletesOwnedOnce(O.Destroy(w, s), order[1..]);
    }
  }

  /**
   * A program that starts from nothing, keeps the caller's side of the
   * contract, and ends every pointer's lifetime while holding no raw owning
   * pointer, has deleted every allocation exactly once: nothing is live, the
   * deletions match the allocations address by address, and no `delete` hit
   * a dead address.
   */
  lemma EveryAllocationDeletedOnce<T>(ops: seq<Op<T>>, order: seq<O.SlotId>)
    requires AllowedRun(O.EmptyWorld(), ops)
    requires Run(O.EmptyWorld(), ops).raw == {}
    requires DistinctSlots(Run(O.EmptyWorld(), ops), order)
    requires forall s :: s in Run(O.EmptyWorld(), ops).slots ==> s in order
    ensures var r := DestroyAll(Run(O.EmptyWorld(), ops), order);
            && r.heap.objects == map[]
            && r.heap.allocations == r.heap.deletions
            && !r.heap.badDelete
  {
    var w := Run(O.EmptyWorld(), ops);
    RunKeepsGood(O.EmptyWorld(), ops);
    DestroyAllKeepsGood(w, order);
    var r := DestroyAll(w, order);
    assert r.heap.objects.Keys == {};
    assert forall a :: r.heap.allocations[a] == r.heap.deletions[a];
  }

  // Scenarios, with a counter-like element type represented by its int value.

  /**
   * Construct in place with 5; `reset(new Counter(7))` deletes the first
   * object once and shows 7; `release()` hands back the object holding 7 and
   * leaves the pointer null.
   */
  lemma CounterScenario()
    ensures var w1 := O.DeclareInPlace(O.EmptyWorld<int>(), 0, 5, 1);
            var w2 := O.NewRaw(w1, 7, 2);
            var w3 := O.Reset(w2, 0, Some(2));
            var (w4, out) := O.Release(w3, 0);
            && P.Value(w1.heap, w1.slots[0]) == 5
            && w3.heap.deletions[1] == w1.heap.deletions[1] + 1
            && P.Arrow(w3.slots[0]) in w3.heap.objects
            && P.Value(w3.heap, w3.slots[0]) == 7
            && out == Some(2) && w4.heap.objects[2] == 7
            && !P.ToBool(w4.slots[0])
  {
  }

  /** `pointer<T>()` with no arguments, then the end of its lifetime: net zero allocations. */
  lemma MakeThenDestroyNetZero()
    ensures var w := O.Destroy(O.DeclareInPlace(O.EmptyWorld<int>(), 0, 0, 1), 0);
            && w.heap.objects == map[]
            && w.heap.allocations == w.heap.deletions
            && !w.heap.badDelete
  {
  }

  // What goes wrong when the caller breaks its side of the contract.

  /**
   * Adopting an address another pointer already owns breaks exclusive
   * ownership, and ending both lifetimes deletes it twice.
   */
  lemma AdoptingOwnedAddressDoubleFrees<T>(w: O.World<T>, s: O.SlotId, t: O.SlotId)
    requires O.Good(w) && s in w.slots && t !in w.slots && P.ToBool(w.slots[s])
    ensures var w' := O.DeclareAdopt(w, t, P.Get(w.slots[s]));
            && !O.Good(w')
            && O.Destroy(O.Destroy(w', t), s).heap.badDelete
  {
    var w' := O.DeclareAdopt(w, t, P.Get(w.slots[s]));
    assert s != t && w'.slots[s].stored == w'.slots[t].stored;
    O.OwnedIsLive(w, s);
  }

  /**
   * `p.reset(p.get())` on a non-null `p` deletes the object and then stores
   * its dead address, so the pointer dangles and the end of its lifetime
   * deletes the address a second time.
   */
  lemma ResetToOwnAddressDangles<T>(w: O.World<T>, s: O.SlotId)
    requires O.Good(w) && s in w.slots && P.ToBool(w.slots[s])
    ensures var w' := O.Reset(w, s, P.Get(w.slots[s]));
            && P.Get(w'.slots[s]) == P.Get(w.slots[s])
            && P.Arrow(w'.slots[s]) !in w'.heap.objects
            && !O.Good(w')
            && O.Destroy(w', s).heap.badDelete
  {
    O.OwnedIsLive(w, s);
  }
}

=== FILE: wrappers.dfy ===
/** The Some/None datatype used in place of a nullable C++ pointer. */
module Wrappers {

  datatype Option<+T> = None | Some(value: T)
}
